=== FILE: README.md ===
# RAC offer generator — a Dafny model

The RAC offer generator reads a university admission letter and draws an
"offer" congratulations picture. This project models its two pure parts.

- **Field extraction.** This is `OfferGenerator.extract_info` from the point where
  the letter's text is known. Four regular-expression searches (name, program,
  school, year) run over the text. The PDF branch and the image branch use
  different name rules. A field whose search fails becomes the sentinel
  `未识别`, and a field that matched is stripped.
- **Compositing, as a display list.** This covers the two-variant template table,
  `create_bg`, `generate_offer` (offer_generator.py) and `create_offer_image`
  (streamlit_app.py). Each one is a pure function from a variant key and the
  fields to a canvas size, a fill colour and the drawing calls in order:
  rectangles, polygons, texts and the pasted, rotated year badge.

Modules, one per file:

| module | contents |
|---|---|
| `Wrappers` | `Option`, `Result` |
| `Chars` | `[A-Za-z]`, `\d`, `\w`, Python whitespace, `str.strip()` |
| `Matcher` | hand-written backtracking matchers for the five patterns, `re.search` as a leftmost search, the shape of each pattern's matches |
| `Extractor` | the field record, the sentinel, the two name rules, the PDF and image branches, leftmost-match lemmas per field |
| `Display` | colours, points, fonts as size tags, text layers, drawing calls, pictures, `KeyError` / `NameError` |
| `Templates` | the variant enum, the key lookup, the template table of offer_generator.py |
| `Generator` | `create_bg`, `generate_offer` as written, and with the QR label font corrected |
| `ManualForm` | the colour table and `create_offer_image` of streamlit_app.py |
| `Offers` | how the two compositors relate, what each output ignores, and the document-to-picture path |

Three behaviours of the code are easy to miss:

- **A Chinese name alone is never extracted.** The name patterns need a leading
  ASCII letter (`[A-Za-z]\w+同学`) or one of `P`, `L` or `|` before 同学. A
  letter that mentions only "张三同学" therefore gets the sentinel as its name.
  `Extractor.WellShaped` rules that value out.
- **`generate_offer` does not always complete.** For the pink variant it raises
  `NameError` at its last drawing call (see Findings). Like every statement
  about offer_generator.py here, this reads the file's six string literals
  that span a raw line break as containing `"\n"` (see Left out).
- **The year badge is placed differently in the two compositors.**
  offer_generator.py centres it on (1000, 120). streamlit_app.py puts its
  top-left corner there.

## Model

| member | source | states |
|---|---|---|
| Chars.Strip | offer_generator.py:106 | The result is the slice of the input between its leading and its trailing whitespace. What it drops is all whitespace, and the result neither starts nor ends with whitespace. |
| Chars.StripKeepsUnpadded | offer_generator.py:106 | A string that neither starts nor ends with whitespace is unchanged by strip. |
| Matcher.MatchLiteral | offer_generator.py:90-91 | Matching a literal character by character succeeds exactly when the literal occurs at the position, and the match ends right after it. |
| Matcher.MatchDigits | offer_generator.py:92 | `\d{4}` matches exactly when the next four characters are all digits, and the match is those four. |
| Matcher.WordRun | offer_generator.py:89-90 | What the greedy `\w+` first takes is the maximal run of word characters: every character in it is a word character, and the next one is not. |
| Matcher.GiveBack | offer_generator.py:89-90 | A greedy `\w+` followed by a literal finds the occurrence with the longest `\w+` part (at least one character). No occurrence lies further right within the run. With no result, the literal occurs at no candidate position. |
| Matcher.MatchSchool | offer_generator.py:91 | The school alternation matches exactly where one of the two names occurs, and the matched text is that name. |
| Matcher.MatchInitialName | offer_generator.py:89 | `[P|L]同学` matches exactly where `P`, `L` or `|` is followed by 同学. The match is three characters long. |
| Matcher.SearchFrom | offer_generator.py:89-92 | The search returns a position where the pattern matches, and the pattern matches at no earlier position. With no result, it matches nowhere. |
| Matcher.SearchIsLeftmost | offer_generator.py:89-92 | The search result is exactly the leftmost matching position together with the end of the match there, in both directions. |
| Matcher.ProgramMatchShape | offer_generator.py:90 | `MSc \w+ Media` can only succeed with the whole word run, because giving back a character leaves a word character where the space of " Media" must be. The program pattern matches exactly where "MSc word Media" or "MSc City Planning" starts, and the Media form wins at one position. |
| Matcher.LatinNameShape | offer_generator.py:89 | A match of `[A-Za-z]\w+同学` starts with an ASCII letter and stays inside the run of word characters after it. It ends at the last 同学 of that run. Without a match, there is no letter or no 同学 in that run. |
| Matcher.YearSearchShape | offer_generator.py:92 | The year search finds the first four consecutive digits, and that position starts a digit run, so inside a longer run it takes the first four. With no result, no four digits follow each other anywhere. |
| Matcher.SchoolSearchShape | offer_generator.py:91 | The school search finds whichever of the two names occurs first, and neither occurs earlier. With no result, neither occurs anywhere. |
| Extractor.MatchedText | offer_generator.py:89-92 | Each pattern's match has that pattern's shape, does not start or end with whitespace, and cannot be the sentinel. |
| Extractor.FieldOfMatch | offer_generator.py:106 | A field is the sentinel exactly when its search failed. Otherwise it is exactly the matched text, because the strip removes nothing. |
| Extractor.FieldsWellShaped | offer_generator.py:89-106 | Each of the four fields is trimmed and is either the sentinel or text of its pattern's shape: a year of four digits, one of the two school names, "MSc City Planning" or "MSc word Media", or a Latin or initial name ending in 同学. |
| Extractor.ExtractFromPdf | offer_generator.py:82-106 | The PDF branch yields a well-shaped record of the four keys. With no pages, all four fields are the sentinel. |
| Extractor.ExtractFromImage | offer_generator.py:95-106 | The image branch yields a well-shaped record. When OCR recognised no line, the fields keep their initial '' and all four become the sentinel. |
| Extractor.ExtractInfo | offer_generator.py:77-107 | Whichever branch the file name selects, the result is well shaped. An empty text source gives only sentinels. |
| Extractor.YearIsFirstFourDigits | offer_generator.py:92 | The year is the sentinel exactly when the text has no four consecutive digits. Otherwise it is the first such four, and they start a digit run. |
| Extractor.SchoolIsFirstName | offer_generator.py:91 | The school is the sentinel exactly when neither name occurs. Otherwise it is the name that occurs first, as written in the text. |
| Extractor.ProgramIsFirstForm | offer_generator.py:90 | The program is the sentinel exactly when neither program form occurs. Otherwise it is the first occurrence, and the Media form wins at one position. |
| Extractor.LatinNameAtMatches | offer_generator.py:89 | The backtracking Latin-name matcher succeeds at a position exactly when that position holds an ASCII letter and a 同学 lies inside the word run after it. |
| Extractor.NameSentinelWhenNoCandidate | offer_generator.py:89-106 | Under either branch's rule, the name is the sentinel exactly when neither name pattern can match anywhere. |
| Extractor.ImageNameIsEarlierOfBoth | offer_generator.py:100 | The image branch's single alternation finds whichever name pattern matches first in the text. On a tie, the Latin form wins. |
| Extractor.NameRulesDisagreeIff | offer_generator.py:89-100 | The PDF and image rules pick different names exactly when a `[P|L]同学` occurs before the first Latin name. |
| Extractor.NameRulesDifferExample | offer_generator.py:89-100 | For the text "P同学 Ab同学", the PDF branch names "Ab同学" and the image branch names "P同学". |
| Display.Rotate90Expand | offer_generator.py:183 | Under a counter-clockwise quarter turn, each corner of the layer lands on the next corner of the expanded result, so the result's box is exactly the turned layer. The layer counts one more quarter turn, and its text, ink, font and backdrop are kept. |
| Display.TurnKeepsLayerPixels | offer_generator.py:183 | With `expand`, nothing is cut off and nothing is added: a position lies on the layer exactly when its turned position lies on the result. |
| Display.CentredCorner | offer_generator.py:184-185 | With the paste corner computed by floor division, the anchor lies at the layer's centre, rounded to a whole pixel. |
| Templates.Key | offer_generator.py:34-72 | Looking up a variant's own key gives back that variant. |
| Templates.Lookup | offer_generator.py:114 | The table lookup succeeds exactly for "green" and "pink". Any other key raises KeyError carrying that key. |
| Templates.TemplateOf | offer_generator.py:34-72 | Each variant's entry has the layout slots its drawing routine reads, black text, the brand at (80,60), the badge anchor at (1000,120) and two decorations. |
| Generator.CreateBg | offer_generator.py:112-143 | An unknown key fails with KeyError before any canvas exists. Green gives a 1200x800 canvas in (240,255,240) with the mountain (300,600),(400,500),(500,600) and then the sky [300,300,900,500]. Pink gives (255,240,245) with the folder [200,300,1000,500] and then the QR outline [1000,600,1120,720] of width 2 in the accent colour. |
| Generator.YearBadge | offer_generator.py:179-183 | The badge is "{year} OFFER" on a 300x100 layer, and after the turn it is 100x300. |
| Generator.GenerateOffer | offer_generator.py:148-236 | Unknown key: KeyError. Pink: NameError for `font_tiny`. Green: a 1200x800 picture whose calls are exactly the background's, then the brand (80,60), the centred caption (400,150), the badge pasted at (950,-30), the browser-window outline [300,300,600,350], the sky rectangle from corners (350,320),(500,300), the hill triangle (350,300),(600,320),(850,300), the footer "TO\n{school}" at (80,650) with spacing 10, and the lightning triangle (200,690),(220,690),(210,710). |
| Generator.GenerateOfferCorrected | offer_generator.py:207-234 | With the QR label in the tiny font, both variants complete. Pink shows the badge at (950,-30) and "TO\n{name}" at (80,650), and ends with "RAC STUDIO" at (1000,730) in the accent colour. Green is unchanged. |
| ManualForm.PaletteOf | streamlit_app.py:9-20 | This file's colour table agrees with offer_generator.py's for both variants. |
| ManualForm.CreateOfferImage | streamlit_app.py:22-68 | Unknown key: KeyError. Otherwise the exact picture: a 1200x800 canvas in the variant's colour whose calls are, in order, "RAC STUDIO" at (80,60), the caption (green: centred at (400,150); pink: right-aligned at (900,150)), the 100x300 badge with its corner at (1000,120), and the footer "TO\n{school}" (green) or "TO\n{name}" (pink) at (80,650). Pink then adds the QR outline [1000,600,1120,720] and the small "RAC STUDIO" label at (1000,730). Nothing else is drawn. |
| Offers.CaptionsAgree | streamlit_app.py:37-66 | For the same fields, both compositors write the same texts at the same places in the same order. |
| Offers.BadgePlacementDiffers | streamlit_app.py:42-47 | Both compositors paste exactly one badge, with the same size and text. offer_generator.py's corner is the other's moved back by half the layer: its top lies above the canvas, while streamlit_app.py's badge lies wholly on it. |
| Offers.OutputIgnoresUnshownFields | streamlit_app.py:22-68 | Green output does not depend on the name or the program, and pink output does not depend on the school, in either compositor. |
| Offers.OfferFromDocument | offer_generator.py:148-236 | From a document, the extracted record is well shaped. An unknown key raises KeyError, and pink raises NameError for `font_tiny`. Green gives a 1200x800 picture whose footer shows the extracted school. |

## Findings

| source | as written | input that shows it | evidently intended | confidence | as-written member | corrected member |
|---|---|---|---|---|---|---|
| offer_generator.py:233-234 | The pink QR label is drawn with `font=font_tiny`, and `generate_offer` never assigns that name, so the call raises NameError and no picture is returned. This assumes the string literals that span a raw line break compile (see Left out), and the imaging library accepts the folder rectangle (200,300,800,200) drawn first at :225, whose second corner lies above its first. A version that rejects it raises ValueError there instead. | any fields with `offer_type` "pink" | the 28-point `self.fonts['tiny']` that the constructor loads | high; not executed | Generator.GenerateOffer | Generator.GenerateOfferCorrected |

`Offers.OfferFromDocument` keeps the code as written. The comparison lemmas `Offers.CaptionsAgree`, `Offers.BadgePlacementDiffers` and `Offers.OutputIgnoresUnshownFields` use the corrected definition, so that the pink variant can be compared at all.

## Left out

- Web UI: `main()` in both files (page setup, uploads, temporary files, download buttons, per-file error reporting). This is I/O plumbing. One consequence is not modelled: the upload handler names its temporary file with the extension but without the dot, which bears on `IsPdfPath`.
- String literals with raw line breaks: in offer_generator.py six ordinary double-quoted literals continue onto the next line with a raw line break instead of `\n`. They are the page join at :84-85, the OCR line join at :98-99, the two captions at :175-176 and :213-214, and the two footers at :196-197 and :227-228. Python rejects such a literal, so the file as it stands does not compile and nothing in it runs. The model reads each of those breaks as `"\n"`, which is what streamlit_app.py writes at :39, :49, :53 and :63, and every contract about offer_generator.py holds only under that reading.
- Reading documents: PDF text extraction and the OCR engine are foreign libraries. The PDF's page texts and the OCR's recognised lines are parameters, joined with `"\n"` under the reading of the raw line breaks above. A failure to open or read a file is not modelled. The OCR result shapes `result` and `result[0]` are collapsed into one list of lines, where an empty list stands for "nothing recognised".
- Fonts: loading `simhei.ttf` / `arial.ttf` and the fallback to the default font depend on the filesystem. A font is a size tag (large, medium, small, tiny). streamlit_app.py's fallback to an unsized default font is not distinguished.
- Rasterisation: glyph rendering, pixel rotation, alpha compositing and PNG encoding stop at the display list. Whether the imaging library accepts a rectangle whose second corner lies above its first is not modelled. The green landscape (350,320,500,300) and the pink folder area (200,300,800,200) are such rectangles.
- Chars.IsWordChar, Chars.IsDigit: Python's Unicode `\w` and `\d` are approximated. `\w` is ASCII letters, digits, `_` and the CJK ideograph blocks. `\d` is the ASCII and fullwidth digits. Other scripts' letters and digits are not included.
- Extractor.LowerAscii: `str.lower()` is modelled for ASCII only.

=== FILE: Chars.dfy ===
/**
 * Character classes used by the extraction patterns, and Python's
 * `str.strip()` with no argument.
 *
 * Python matches `\w` and `\d` against the whole Unicode database; this
 * module fixes a concrete subset that contains every character the
 * extraction rules depend on.
 */
module Chars {

  /** The regex class `[A-Za-z]` (ASCII only, no IGNORECASE flag). */
  predicate IsAsciiLetter(c: char) {
    ('A' <= c <= 'Z') || ('a' <= c <= 'z')
  }

  /** `\d`: ASCII digits and the fullwidth digits `０`..`９`. */
  predicate IsDigit(c: char) {
    ('0' <= c <= '9') || ('\U{FF10}' <= c <= '\U{FF19}')
  }

  /**
   * `\w`: ASCII letters, digits, `_`, and the CJK ideograph blocks
   * (which hold 同 and 学).
   */
  predicate IsWordChar(c: char) {
    || IsAsciiLetter(c)
    || IsDigit(c)
    || c == '_'
    || ('\U{3400}' <= c <= '\U{4DBF}')
    || ('\U{4E00}' <= c <= '\U{9FFF}')
  }

  /** Python's `str.isspace()`, the set `str.strip()` removes. */
  predicate IsSpace(c: char) {
    || c == ' ' || c == '\t' || c == '\n' || c == '\r'
    || c == '\U{000B}' || c == '\U{000C}'
    || ('\U{001C}' <= c <= '\U{001F}')
    || c == '\U{0085}' || c == '\U{00A0}' || c == '\U{1680}'
    || ('\U{2000}' <= c <= '\U{200A}')
    || c == '\U{2028}' || c == '\U{2029}' || c == '\U{202F}'
    || c == '\U{205F}' || c == '\U{3000}'
  }

  /** No word character is whitespace, so a strip never eats into a match. */
  lemma WordCharIsNotSpace(c: char)
    requires IsWordChar(c)
    ensures !IsSpace(c)
  {
  }

  /** Number of leading whitespace characters of `s`. */
  function LeadingSpace(s: string): (n: nat)
    ensures n <= |s|
    ensures forall k :: 0 <= k < n ==> IsSpace(s[k])
    ensures n < |s| ==> !IsSpace(s[n])
  {
    if |s| == 0 || !IsSpace(s[0]) then 0 else 1 + LeadingSpace(s[1..])
  }

  /** Length of `s` once its trailing whitespace is dropped. */
  function TrailingCut(s: string): (m: nat)
    ensures m <= |s|
    ensures forall k :: m <= k < |s| ==> IsSpace(s[k])
    ensures 0 < m ==> !IsSpace(s[m - 1])
  {
    if |s| == 0 || !IsSpace(s[|s| - 1]) then |s| else TrailingCut(s[..|s| - 1])
  }

  /** `s.strip()`: the slice between the leading and the trailing whitespace. */
  function Strip(s: string): (r: string)
    ensures |r| <= |s|
    ensures |r| > 0 ==> !IsSpace(r[0]) && !IsSpace(r[|r| - 1])
    ensures LeadingSpace(s) + |r| <= |s|
    ensures r == s[LeadingSpace(s)..LeadingSpace(s) + |r|]
    ensures forall k :: LeadingSpace(s) + |r| <= k < |s| ==> IsSpace(s[k])
  {
    var n := LeadingSpace(s);
    var m := TrailingCut(s[n..]);
    assert s[n..][..m] == s[n..n + m];
    s[n..n + m]
  }

  /** A string that neither starts nor ends with whitespace is its own strip. */
  lemma StripKeepsUnpadded(s: string)
    requires |s| > 0 && !IsSpace(s[0]) && !IsSpace(s[|s| - 1])
    ensures Strip(s) == s
  {
    assert LeadingSpace(s) == 0;
    assert s[0..] == s;
    assert TrailingCut(s) == |s|;
  }
}

=== FILE: Display.dfy ===
/**
 * The display list a compositor produces: a canvas size, a fill colour and
 * the drawing calls in the order they are made. Rasterisation (glyphs,
 * rotation of pixels, alpha compositing, encoding) is not modelled.
 */
module Display {
  import opened Wrappers

  datatype Rgb = Rgb(red: int, green: int, blue: int)
  datatype Rgba = Rgba(red: int, green: int, blue: int, alpha: int)
  datatype Point = Point(x: int, y: int)

  /** `align=` of a multi-line text; the default is left. */
  datatype Align = Left | Center | Right

  /** A font as requested, known only by its nominal size: 72, 48, 36 or 28 points. */
  datatype Font = Large | Medium | Small | Tiny

  /**
   * A transparent text layer: `Image.new('RGBA', (width, height), backdrop)`
   * with `text` drawn at its corner, then turned by `quarterTurns`
   * counter-clockwise quarter turns.
   */
  datatype Layer = Layer(
    width: int, height: int, backdrop: Rgba,
    text: string, ink: Rgb, font: Font, quarterTurns: nat)

  /** One drawing call. */
  datatype Command =
    | Text(at: Point, text: string, ink: Rgb, font: Font, align: Align, spacing: int)
    | Rectangle(x0: int, y0: int, x1: int, y1: int, fill: Option<Rgb>, outline: Option<Rgb>, width: int)
    | Polygon(vertices: seq<Point>, fill: Option<Rgb>)
    | Paste(at: Point, layer: Layer)

  /** The canvas: `Image.new('RGB', (width, height), background)` plus its drawing calls. */
  datatype Picture = Picture(width: int, height: int, background: Rgb, commands: seq<Command>)

  /** The exceptions the compositors raise. */
  datatype Error = KeyError(key: string) | NameError(name: string)

  const CanvasWidth: int := 1200
  const CanvasHeight: int := 800

  /** Pillow's default line spacing of multi-line text and outline width. */
  const DefaultSpacing: int := 4
  const DefaultLineWidth: int := 1

  /** A fresh text layer, not yet rotated. */
  function TextLayer(width: int, height: int, backdrop: Rgba, text: string, ink: Rgb, font: Font): Layer {
    Layer(width, height, backdrop, text, ink, font, 0)
  }

  /** A position on a `w` x `h` layer, its edges included. */
  predicate InBox(p: Point, w: int, h: int) {
    0 <= p.x <= w && 0 <= p.y <= h
  }

  /**
   * Where a counter-clockwise quarter turn (Pillow's positive angle, y
   * pointing down) carries position `p` of a layer `w` wide, measured on the
   * expanded canvas.
   */
  function QuarterTurn(w: int, p: Point): Point {
    Point(p.y, w - p.x)
  }

  /** The corners of a `w` x `h` box, clockwise from the top left. */
  function Corners(w: int, h: int): seq<Point> {
    [Point(0, 0), Point(w, 0), Point(w, h), Point(0, h)]
  }

  /**
   * `layer.rotate(90, expand=1)`: a quarter turn whose canvas grows to hold
   * the whole turned layer. Each corner of the layer lands on the next
   * corner counter-clockwise of the result, so the result's box is exactly
   * the turned layer; the content is unchanged.
   */
  function Rotate90Expand(l: Layer): (r: Layer)
    ensures forall i :: 0 <= i < 4 ==>
      QuarterTurn(l.width, Corners(l.width, l.height)[i]) == Corners(r.width, r.height)[(i + 3) % 4]
    ensures r.quarterTurns == l.quarterTurns + 1
    ensures r.text == l.text && r.ink == l.ink && r.font == l.font && r.backdrop == l.backdrop
  {
    l.(width := l.height, height := l.width, quarterTurns := l.quarterTurns + 1)
  }

  /**
   * Nothing of the layer is cut off and nothing is added: a position lies on
   * the layer exactly when its turned position lies on the turned layer.
   */
  lemma TurnKeepsLayerPixels(l: Layer, p: Point)
    ensures InBox(p, l.width, l.height) <==> InBox(QuarterTurn(l.width, p), Rotate90Expand(l).width, Rotate90Expand(l).height)
  {
  }

  /**
   * The top-left corner that puts the centre of `l` on `anchor`, computed
   * with Python's floor division `//` (for the positive divisor 2 Dafny's
   * `/` agrees with it): the anchor sits on the centre, rounded down to a
   * whole pixel.
   */
  function CentredCorner(anchor: Point, l: Layer): (p: Point)
    ensures l.width - 1 <= 2 * (anchor.x - p.x) <= l.width
    ensures l.height - 1 <= 2 * (anchor.y - p.y) <= l.height
  {
    Point(anchor.x - l.width / 2, anchor.y - l.height / 2)
  }

  /** The (position, text) of every text call, in drawing order. */
  function Captions(cs: seq<Command>): seq<(Point, string)> {
    if |cs| == 0 then []
    else if cs[0].Text? then [(cs[0].at, cs[0].text)] + Captions(cs[1..])
    else Captions(cs[1..])
  }

  /** The corner and layer of every paste, in drawing order. */
  function Pastes(cs: seq<Command>): seq<(Point, Layer)> {
    if |cs| == 0 then []
    else if cs[0].Paste? then [(cs[0].at, cs[0].layer)] + Pastes(cs[1..])
    else Pastes(cs[1..])
  }

  /** The text layer on the canvas lies wholly inside the canvas. */
  predicate PasteOnCanvas(at: Point, l: Layer) {
    0 <= at.x && at.x + l.width <= CanvasWidth && 0 <= at.y && at.y + l.height <= CanvasHeight
  }
}

=== FILE: Extractor.dfy ===
/**
 * The field extraction of `OfferGenerator.extract_info`, from the moment
 * the document's text is known: four independent searches, the different
 * name rules of the PDF and the image branch, and the final comprehension
 * that strips each match or substitutes the sentinel 未识别.
 */
module Extractor {
  import opened Wrappers
  import opened Chars
  import opened Matcher

  /** The sentinel for a field whose pattern did not match. */
  const Unrecognised: string := "未识别"

  /** The four fields, always all present. */
  datatype FieldSet = FieldSet(name: string, program: string, school: string, year: string)

  /**
   * A value of the `info` dictionary before the final comprehension: the
   * initial empty string, or what `re.search` returned.
   */
  datatype Slot = Initial | Searched(group: Option<string>)

  /** How the name is searched: PDF text or OCR text. */
  datatype NameRule = PdfRule | ImageRule

  const AllUnrecognised: FieldSet :=
    FieldSet(Unrecognised, Unrecognised, Unrecognised, Unrecognised)

  /**
   * `v.group().strip() if v else '未识别'`: the initial '' and a failed
   * search are both falsy.
   */
  function Finish(v: Slot): string {
    match v
    case Searched(Some(g)) => Strip(g)
    case _ => Unrecognised
  }

  /** `"\n".join(parts)`. */
  function JoinLines(parts: seq<string>): string {
    if |parts| == 0 then ""
    else if |parts| == 1 then parts[0]
    else parts[0] + "\n" + JoinLines(parts[1..])
  }

  /**
   * The name search: the PDF branch tries `[A-Za-z]\w+同学` over the whole
   * text and only then `[P|L]同学`; the image branch searches the
   * alternation of the two.
   */
  function NameSearch(rule: NameRule, t: string): Option<Span> {
    match rule
    case PdfRule =>
      (match Search(LatinName, t)
       case Some(sp) => Some(sp)
       case None => Search(InitialName, t))
    case ImageRule => Search(EitherName, t)
  }

  /** The field a search result becomes. */
  function FieldOf(t: string, m: Option<Span>): string
    requires m.Some? ==> m.value.start <= m.value.end <= |t|
  {
    Finish(Searched(Group(t, m)))
  }

  /** The four searches over one text, then the final comprehension. */
  function FieldsOf(t: string, rule: NameRule): FieldSet {
    FieldSet(
      name := FieldOf(t, NameSearch(rule, t)),
      program := FieldOf(t, Search(ProgramName, t)),
      school := FieldOf(t, Search(SchoolName, t)),
      year := FieldOf(t, Search(FourDigits, t)))
  }

  // ---------------------------------------------------------------------
  // What a field can look like
  // ---------------------------------------------------------------------

  /** No surrounding whitespace. */
  predicate Trimmed(f: string) {
    |f| == 0 || (!IsSpace(f[0]) && !IsSpace(f[|f| - 1]))
  }

  predicate IsYear(y: string) {
    |y| == 4 && forall k :: 0 <= k < 4 ==> IsDigit(y[k])
  }

  predicate IsSchool(s: string) {
    s == Edinburgh || s == EdinburghZh
  }

  /** "MSc " + one word (so no space inside) + " Media". */
  predicate IsMediaProgram(p: string) {
    && |p| >= |MscPrefix| + 1 + |MediaSuffix|
    && p[..|MscPrefix|] == MscPrefix
    && p[|p| - |MediaSuffix|..] == MediaSuffix
    && forall k :: |MscPrefix| <= k < |p| - |MediaSuffix| ==> IsWordChar(p[k])
  }

  predicate IsProgram(p: string) {
    p == CityPlanning || IsMediaProgram(p)
  }

  /** A Latin letter, then word characters, ending in 同学. */
  predicate IsLatinName(n: string) {
    && |n| >= 4
    && IsAsciiLetter(n[0])
    && n[|n| - 2..] == Classmate
    && forall k :: 1 <= k < |n| ==> IsWordChar(n[k])
  }

  /** P, L or the bar, then 同学. */
  predicate IsInitialName(n: string) {
    |n| == 3 && IsInitial(n[0]) && n[1..] == Classmate
  }

  /** Every field is the sentinel or has the shape its pattern allows. */
  predicate WellShaped(f: FieldSet) {
    && (f.name == Unrecognised || IsLatinName(f.name) || IsInitialName(f.name))
    && (f.program == Unrecognised || IsProgram(f.program))
    && (f.school == Unrecognised || IsSchool(f.school))
    && (f.year == Unrecognised || IsYear(f.year))
    && Trimmed(f.name) && Trimmed(f.program) && Trimmed(f.school) && Trimmed(f.year)
  }

  /** The shape a match of pattern `p` has. */
  predicate Fits(p: Pattern, g: string) {
    match p
    case FourDigits => IsYear(g)
    case SchoolName => IsSchool(g)
    case ProgramName => IsProgram(g)
    case LatinName => IsLatinName(g)
    case InitialName => IsInitialName(g)
    case EitherName => IsLatinName(g) || IsInitialName(g)
  }

  // ---------------------------------------------------------------------
  // Matched text: its shape, and why the strip leaves it alone
  // ---------------------------------------------------------------------

  lemma ProgramText(t: string, i: nat)
    requires i <= |t| && MatchProgram(t, i).Some?
    ensures var g := t[i..MatchProgram(t, i).value];
      IsProgram(g) && g[0] == 'M' && (g[|g| - 1] == 'a' || g[|g| - 1] == 'g')
  {
    ProgramMatchShape(t, i);
    var e := MatchProgram(t, i).value;
    var g := t[i..e];
    if MediaFormAt(t, i) {
      var m := WordRun(t, i + |MscPrefix|);
      assert g[..|MscPrefix|] == t[i..i + |MscPrefix|];
      assert g[|g| - |MediaSuffix|..] == t[e - |MediaSuffix|..e];
      forall k | |MscPrefix| <= k < |g| - |MediaSuffix|
        ensures IsWordChar(g[k])
      {
        assert g[k] == t[i + k];
      }
      LiteralChars(MscPrefix, t, i, 0);
      LiteralChars(MediaSuffix, t, e - |MediaSuffix|, |MediaSuffix| - 1);
    } else {
      assert g == CityPlanning;
    }
  }

  lemma LatinNameText(t: string, i: nat)
    requires i <= |t| && MatchLatinName(t, i).Some?
    ensures var g := t[i..MatchLatinName(t, i).value];
      IsLatinName(g) && Trimmed(g)
  {
    LatinNameShape(t, i);
    var e := MatchLatinName(t, i).value;
    var g := t[i..e];
    assert g[|g| - 2..] == t[e - 2..e];
    forall k | 1 <= k < |g|
      ensures IsWordChar(g[k])
    {
      assert g[k] == t[i + k];
    }
    WordCharIsNotSpace(g[|g| - 1]);
  }

  lemma InitialNameText(t: string, i: nat)
    requires i <= |t| && MatchInitialName(t, i).Some?
    ensures var g := t[i..MatchInitialName(t, i).value];
      IsInitialName(g) && Trimmed(g)
  {
    var g := t[i..i + 3];
    assert g[1..] == t[i + 1..i + 3];
    ClassmateIsWord(t, i + 1);
    assert g[2] == t[i + 2];
  }

  /**
   * A match of each pattern is non-empty, has the pattern's shape, and
   * neither starts nor ends with whitespace.
   */
  lemma {:induction false} MatchedText(p: Pattern, t: string, i: nat)
    requires i <= |t| && MatchAt(p, t, i).Some?
    ensures var g := t[i..MatchAt(p, t, i).value];
      Fits(p, g) && Trimmed(g) && g[0] != Unrecognised[0]
  {
    var e := MatchAt(p, t, i).value;
    var g := t[i..e];
    match p
    case FourDigits =>
      forall k | 0 <= k < 4
        ensures IsDigit(g[k])
      {
        assert g[k] == t[i + k];
      }
    case SchoolName =>
    case ProgramName =>
      ProgramText(t, i);
    case LatinName =>
      LatinNameText(t, i);
    case InitialName =>
      InitialNameText(t, i);
    case EitherName =>
      if MatchLatinName(t, i).Some? {
        LatinNameText(t, i);
      } else {
        InitialNameText(t, i);
      }
  }

  /**
   * The field a successful search produces is the matched text itself
   * (the strip removes nothing); a failed search, and only a failed one,
   * yields the sentinel.
   */
  lemma {:induction false} FieldOfMatch(p: Pattern, t: string, m: Option<Span>)
    requires m.Some? ==> m.value.start <= |t| && MatchAt(p, t, m.value.start) == Some(m.value.end)
    ensures m.Some? ==> m.value.start <= m.value.end <= |t|
    ensures m.None? <==> FieldOf(t, m) == Unrecognised
    ensures m.Some? ==> FieldOf(t, m) == t[m.value.start..m.value.end] && Fits(p, FieldOf(t, m))
    ensures Trimmed(FieldOf(t, m))
  {
    if m.None? {
      assert FieldOf(t, m) == Unrecognised;
    } else {
      var g := t[m.value.start..m.value.end];
      MatchedText(p, t, m.value.start);
      StripKeepsUnpadded(g);
      assert FieldOf(t, m) == g;
      assert g[0] != Unrecognised[0];
    }
  }

  /** What the two name rules find, as a match of `[A-Za-z]\w+同学|[P|L]同学`. */
  lemma NameSearchMatches(rule: NameRule, t: string)
    ensures var m := NameSearch(rule, t);
      m.Some? ==> m.value.start <= |t| && MatchAt(EitherName, t, m.value.start) == Some(m.value.end)
  {
    var m := NameSearch(rule, t);
    if m.Some? && rule.PdfRule? {
      var s := m.value.start;
      if Search(LatinName, t).Some? {
        assert MatchAt(LatinName, t, s) == Some(m.value.end);
      } else {
        assert MatchAt(InitialName, t, s) == Some(m.value.end);
        assert MatchLatinName(t, s).None? by {
          assert MatchAt(LatinName, t, s).None?;
        }
      }
    }
  }

  /** Every field of `FieldsOf` is the sentinel or a trimmed text of its pattern's shape. */
  lemma {:induction false} FieldsWellShaped(t: string, rule: NameRule)
    ensures WellShaped(FieldsOf(t, rule))
  {
    var f := FieldsOf(t, rule);
    NameSearchMatches(rule, t);
    FieldOfMatch(EitherName, t, NameSearch(rule, t));
    assert f.name == Unrecognised || Fits(EitherName, f.name);
    FieldOfMatch(ProgramName, t, Search(ProgramName, t));
    assert f.program == Unrecognised || Fits(ProgramName, f.program);
    FieldOfMatch(SchoolName, t, Search(SchoolName, t));
    assert f.school == Unrecognised || Fits(SchoolName, f.school);
    FieldOfMatch(FourDigits, t, Search(FourDigits, t));
    assert f.year == Unrecognised || Fits(FourDigits, f.year);
  }

  // ---------------------------------------------------------------------
  // The extraction entry points
  // ---------------------------------------------------------------------

  /**
   * The PDF branch: the page texts joined with newlines, then the four
   * searches with the PDF name rule. No pages give no text, hence only
   * sentinels.
   */
  function ExtractFromPdf(pages: seq<string>): (r: FieldSet)
    ensures WellShaped(r)
    ensures |pages| == 0 ==> r == AllUnrecognised
  {
    FieldsWellShaped(JoinLines(pages), PdfRule);
    FieldsOf(JoinLines(pages), PdfRule)
  }

  /**
   * The image branch over the recognised lines of the first page. When OCR
   * recognised no line, no search runs and every field keeps its initial
   * '', which the final comprehension turns into the sentinel.
   */
  function ExtractFromImage(lines: seq<string>): (r: FieldSet)
    ensures WellShaped(r)
    ensures |lines| == 0 ==> r == AllUnrecognised
  {
    if |lines| == 0 then
      FieldSet(Finish(Initial), Finish(Initial), Finish(Initial), Finish(Initial))
    else
      FieldsWellShaped(JoinLines(lines), ImageRule);
      FieldsOf(JoinLines(lines), ImageRule)
  }

  /** ASCII `str.lower()`. */
  function LowerAscii(s: string): string {
    if |s| == 0 then ""
    else [if 'A' <= s[0] <= 'Z' then (s[0] as int + 32) as char else s[0]] + LowerAscii(s[1..])
  }

  /** `file_path.lower().endswith('.pdf')`. */
  predicate IsPdfPath(path: string) {
    var l := LowerAscii(path);
    |l| >= 4 && l[|l| - 4..] == ".pdf"
  }

  /**
   * `extract_info`: the file name picks the branch; the text the PDF
   * reader or the OCR engine would produce for the file is passed in.
   */
  function ExtractInfo(path: string, pdfPages: seq<string>, ocrLines: seq<string>): (r: FieldSet)
    ensures WellShaped(r)
    ensures IsPdfPath(path) && |pdfPages| == 0 ==> r == AllUnrecognised
    ensures !IsPdfPath(path) && |ocrLines| == 0 ==> r == AllUnrecognised
  {
    if IsPdfPath(path) then ExtractFromPdf(pdfPages) else ExtractFromImage(ocrLines)
  }

  // ---------------------------------------------------------------------
  // Each field is the leftmost occurrence of its pattern
  // ---------------------------------------------------------------------

  /** `i` is the first position holding four digits. */
  predicate FirstYearAt(t: string, i: nat) {
    && DigitsAt(t, i, 4)
    && (forall j :: 0 <= j < i ==> !DigitsAt(t, j, 4))
  }

  /**
   * The year is the first run of four digits in the text, and that run
   * starts a run of digits (inside a longer run it is the first four); it
   * is the sentinel exactly when no four digits follow each other.
   */
  lemma {:induction false} YearIsFirstFourDigits(t: string, rule: NameRule)
    ensures var y := FieldsOf(t, rule).year;
      && (y == Unrecognised <==> forall i :: 0 <= i <= |t| ==> !DigitsAt(t, i, 4))
      && (y != Unrecognised ==>
            exists i: nat :: (FirstYearAt(t, i) && y == t[i..i + 4] && (i == 0 || !IsDigit(t[i - 1]))))
  {
    var m := Search(FourDigits, t);
    assert FieldsOf(t, rule).year == FieldOf(t, m);
    YearSearchShape(t);
    FieldOfMatch(FourDigits, t, m);
    if m.Some? {
      assert FirstYearAt(t, m.value.start);
    }
  }

  predicate SchoolAt(t: string, i: nat) {
    LiteralAt(Edinburgh, t, i) || LiteralAt(EdinburghZh, t, i)
  }

  predicate FirstSchoolAt(t: string, i: nat) {
    && i <= |t|
    && SchoolAt(t, i)
    && (forall j :: 0 <= j < i ==> !SchoolAt(t, j))
  }

  /**
   * The school is whichever of the two names occurs first, written as it
   * occurs; it is the sentinel exactly when neither name occurs.
   */
  lemma {:induction false} SchoolIsFirstName(t: string, rule: NameRule)
    ensures var s := FieldsOf(t, rule).school;
      && (s == Unrecognised <==> forall i :: 0 <= i <= |t| ==> !SchoolAt(t, i))
      && (s != Unrecognised ==> IsSchool(s) && exists i: nat :: (FirstSchoolAt(t, i) && LiteralAt(s, t, i)))
  {
    var m := Search(SchoolName, t);
    var s := FieldOf(t, m);
    assert FieldsOf(t, rule).school == s;
    FieldOfMatch(SchoolName, t, m);
    if m.Some? {
      var sp := m.value;
      assert s == t[sp.start..sp.end];
      assert MatchSchool(t, sp.start) == Some(sp.end);
      forall j | 0 <= j < sp.start
        ensures !SchoolAt(t, j)
      {
        assert MatchAt(SchoolName, t, j).None?;
      }
      assert FirstSchoolAt(t, sp.start);
      assert LiteralAt(s, t, sp.start);
    } else {
      forall i | 0 <= i <= |t|
        ensures !SchoolAt(t, i)
      {
        assert MatchAt(SchoolName, t, i).None?;
      }
    }
  }

  /** One of the two program forms starts at `i`. */
  predicate ProgramAt(t: string, i: nat)
    requires i <= |t|
  {
    MediaFormAt(t, i) || LiteralAt(CityPlanning, t, i)
  }

  /** Where the program starting at `i` ends: the Media form wins at one position. */
  function ProgramEnd(t: string, i: nat): nat
    requires i <= |t|
  {
    if MediaFormAt(t, i) then i + |MscPrefix| + WordRun(t, i + |MscPrefix|) + |MediaSuffix|
    else i + |CityPlanning|
  }

  predicate FirstProgramAt(t: string, i: nat) {
    && i <= |t|
    && ProgramAt(t, i)
    && (forall j :: 0 <= j < i ==> !ProgramAt(t, j))
  }

  /**
   * The program is the first place where "MSc <word> Media" or "MSc City
   * Planning" starts, the Media form preferred at one position; it is the
   * sentinel exactly when neither form occurs.
   */
  lemma {:induction false} ProgramIsFirstForm(t: string, rule: NameRule)
    ensures var p := FieldsOf(t, rule).program;
      && (p == Unrecognised <==> forall i :: 0 <= i <= |t| ==> !ProgramAt(t, i))
      && (p != Unrecognised ==> IsProgram(p))
      && (p != Unrecognised ==>
            exists i: nat :: (FirstProgramAt(t, i) && ProgramEnd(t, i) <= |t| && p == t[i..ProgramEnd(t, i)]))
  {
    var m := Search(ProgramName, t);
    var p := FieldOf(t, m);
    assert FieldsOf(t, rule).program == p;
    FieldOfMatch(ProgramName, t, m);
    forall i | 0 <= i <= |t|
      ensures MatchAt(ProgramName, t, i).None? <==> !ProgramAt(t, i)
    {
      ProgramMatchShape(t, i);
    }
    if m.Some? {
      var sp := m.value;
      ProgramMatchShape(t, sp.start);
      assert ProgramEnd(t, sp.start) == sp.end;
      forall j | 0 <= j < sp.start
        ensures !ProgramAt(t, j)
      {
        assert MatchAt(ProgramName, t, j).None?;
      }
      assert FirstProgramAt(t, sp.start);
    }
  }

  // ---------------------------------------------------------------------
  // The two name rules
  // ---------------------------------------------------------------------

  /** `[A-Za-z]\w+同学` can match at `i`: a letter, and 同学 inside the word run after it. */
  predicate LatinNameAt(t: string, i: nat)
    requires i <= |t|
  {
    && i < |t|
    && IsAsciiLetter(t[i])
    && exists j :: i + 2 <= j <= i + 1 + WordRun(t, i + 1) && LiteralAt(Classmate, t, j)
  }

  /** `[P|L]同学` can match at `i`. */
  predicate InitialNameAt(t: string, i: nat) {
    i < |t| && IsInitial(t[i]) && LiteralAt(Classmate, t, i + 1)
  }

  lemma LatinNameAtMatches(t: string, i: nat)
    requires i <= |t|
    ensures MatchLatinName(t, i).Some? <==> LatinNameAt(t, i)
  {
    LatinNameShape(t, i);
    if MatchLatinName(t, i).Some? {
      assert LiteralAt(Classmate, t, MatchLatinName(t, i).value - 2);
    }
  }

  /**
   * Under either rule the name is the sentinel exactly when neither name
   * pattern can match anywhere in the text.
   */
  lemma {:induction false} NameSentinelWhenNoCandidate(t: string, rule: NameRule)
    ensures FieldsOf(t, rule).name == Unrecognised <==>
      forall i :: 0 <= i <= |t| ==> !LatinNameAt(t, i) && !InitialNameAt(t, i)
  {
    var m := NameSearch(rule, t);
    assert FieldsOf(t, rule).name == FieldOf(t, m);
    NameSearchMatches(rule, t);
    FieldOfMatch(EitherName, t, m);
    forall i | 0 <= i <= |t|
      ensures MatchAt(LatinName, t, i).None? <==> !LatinNameAt(t, i)
      ensures MatchAt(EitherName, t, i).None? <==> !LatinNameAt(t, i) && !InitialNameAt(t, i)
    {
      LatinNameAtMatches(t, i);
    }
    if m.Some? {
      var s := m.value.start;
      assert LatinNameAt(t, s) || InitialNameAt(t, s);
    } else if rule.PdfRule? {
      forall i | 0 <= i <= |t|
        ensures !LatinNameAt(t, i) && !InitialNameAt(t, i)
      {
        assert MatchAt(LatinName, t, i).None?;
        assert MatchAt(InitialName, t, i).None?;
      }
    }
  }

  /** The earlier of two search results; the first one on a tie. */
  function Earlier(a: Option<Span>, b: Option<Span>): Option<Span> {
    if a.None? then b
    else if b.None? then a
    else if a.value.start <= b.value.start then a
    else b
  }

  /**
   * The image rule's single alternation finds whichever of the two name
   * patterns matches first in the text, `[A-Za-z]\w+同学` on a tie.
   */
  lemma {:induction false} ImageNameIsEarlierOfBoth(t: string)
    ensures NameSearch(ImageRule, t) == Earlier(Search(LatinName, t), Search(InitialName, t))
  {
    var a := Search(LatinName, t);
    var b := Search(InitialName, t);
    var c := Search(EitherName, t);
    var w := Earlier(a, b);
    if w.Some? {
      var s := w.value.start;
      forall j | 0 <= j < s
        ensures MatchAt(EitherName, t, j).None?
      {
        assert MatchAt(LatinName, t, j).None?;
        assert MatchAt(InitialName, t, j).None?;
      }
      if w == a {
        assert MatchAt(EitherName, t, s) == Some(w.value.end);
      } else {
        assert MatchAt(LatinName, t, s).None?;
        assert MatchAt(EitherName, t, s) == Some(w.value.end);
      }
      SearchIsLeftmost(EitherName, t, s, w.value.end);
    } else {
      forall j | 0 <= j <= |t|
        ensures MatchAt(EitherName, t, j).None?
      {
        assert MatchAt(LatinName, t, j).None?;
        assert MatchAt(InitialName, t, j).None?;
      }
    }
  }

  /**
   * The PDF rule and the image rule find different names exactly when a
   * `[P|L]同学` occurs before the first `[A-Za-z]\w+同学`: the PDF rule
   * still takes the later Latin name, the image rule the earlier initial.
   */
  lemma {:induction false} NameRulesDisagreeIff(t: string)
    ensures NameSearch(PdfRule, t) != NameSearch(ImageRule, t) <==>
      && Search(LatinName, t).Some?
      && Search(InitialName, t).Some?
      && Search(InitialName, t).value.start < Search(LatinName, t).value.start
  {
    ImageNameIsEarlierOfBoth(t);
  }

  /** The Latin name pattern cannot match at the start of "P同学 Ab同学". */
  lemma ExampleNoLatinAtStart(t: string)
    requires t == "P同学 Ab同学"
    ensures MatchLatinName(t, 0).None?
  {
    assert WordRun(t, 3) == 0;
    assert WordRun(t, 2) == 1;
    assert WordRun(t, 1) == 2;
    assert !LiteralAt(Classmate, t, 3) by {
      if LiteralAt(Classmate, t, 3) { LiteralChars(Classmate, t, 3, 0); }
    }
    assert !LiteralAt(Classmate, t, 2) by {
      if LiteralAt(Classmate, t, 2) { LiteralChars(Classmate, t, 2, 0); }
    }
  }

  /** The Latin name pattern matches "Ab同学" inside "P同学 Ab同学". */
  lemma ExampleLatinAtFour(t: string)
    requires t == "P同学 Ab同学"
    ensures MatchLatinName(t, 4) == Some(8)
  {
    assert WordRun(t, 8) == 0;
    assert WordRun(t, 7) == 1;
    assert WordRun(t, 6) == 2;
    assert WordRun(t, 5) == 3;
    assert !LiteralAt(Classmate, t, 8);
    assert !LiteralAt(Classmate, t, 7);
    assert t[6..8] == Classmate;
    assert LiteralAt(Classmate, t, 6);
  }

  lemma ExampleImageSearch(t: string)
    requires t == "P同学 Ab同学"
    ensures NameSearch(ImageRule, t) == Some(Span(0, 3))
  {
    ExampleNoLatinAtStart(t);
    assert t[1..3] == Classmate;
    assert MatchAt(EitherName, t, 0) == Some(3);
    SearchIsLeftmost(EitherName, t, 0, 3);
  }

  lemma ExamplePdfSearch(t: string)
    requires t == "P同学 Ab同学"
    ensures NameSearch(PdfRule, t) == Some(Span(4, 8))
  {
    ExampleNoLatinAtStart(t);
    ExampleLatinAtFour(t);
    assert t[1] == '同' && t[2] == '学' && t[3] == ' ';
    assert MatchAt(LatinName, t, 1).None?;
    assert MatchAt(LatinName, t, 2).None?;
    assert MatchAt(LatinName, t, 3).None?;
    SearchIsLeftmost(LatinName, t, 4, 8);
  }

  /**
   * A letter text with an initial name before a Latin name: the PDF branch
   * reports the Latin name, the image branch the initial.
   */
  lemma NameRulesDifferExample()
    ensures ExtractFromPdf(["P同学 Ab同学"]).name == "Ab同学"
    ensures ExtractFromImage(["P同学 Ab同学"]).name == "P同学"
  {
    var t := "P同学 Ab同学";
    assert t[4..8] == "Ab同学";
    assert t[0..3] == "P同学";
    assert JoinLines([t]) == t;
    ExamplePdfSearch(t);
    ExampleImageSearch(t);
    FieldOfMatch(EitherName, t, Some(Span(4, 8)));
    FieldOfMatch(EitherName, t, Some(Span(0, 3)));
  }
}

=== FILE: Generator.dfy ===
/**
 * `OfferGenerator.create_bg` and the display list of
 * `OfferGenerator.generate_offer` in offer_generator.py, for the fields
 * `extract_info` returned.
 */
module Generator {
  import opened Wrappers
  import opened Display
  import opened Templates
  import Extractor

  const MountainGreen: Rgb := Rgb(150, 200, 150)
  const SkyBlue: Rgb := Rgb(135, 206, 235)
  const FolderFill: Rgb := Rgb(255, 250, 240)
  const FolderEdge: Rgb := Rgb(200, 180, 180)
  const Clear: Rgba := Rgba(0, 0, 0, 0)

  const Brand: string := "RAC STUDIO"
  const Congratulations: string := "Congratulations!\nOffer"

  /**
   * One decoration of the list: the green routine knows mountains and skies,
   * the other routine folders and QR borders; any other pairing draws nothing.
   * Shapes are placed at `pos + size`, halving with floor division.
   */
  function DrawDecoration(v: Variant, accent: Rgb, d: Decoration): seq<Command> {
    match (v, d)
    case (Green, Mountain(pos, size)) =>
      [Polygon([pos, Point(pos.x + size / 2, pos.y - 100), Point(pos.x + size, pos.y)], Some(MountainGreen))]
    case (Green, Sky(pos, size)) =>
      [Rectangle(pos.x, pos.y, pos.x + size, pos.y + 200, Some(SkyBlue), None, DefaultLineWidth)]
    case (Pink, Folder(pos, w, h)) =>
      [Rectangle(pos.x, pos.y, pos.x + w, pos.y + h, Some(FolderFill), Some(FolderEdge), DefaultLineWidth)]
    case (Pink, QrBorder(pos, size)) =>
      [Rectangle(pos.x, pos.y, pos.x + size, pos.y + size, None, Some(accent), 2)]
    case _ => []
  }

  /** The decorations in list order. */
  function DrawDecorations(v: Variant, accent: Rgb, ds: seq<Decoration>): seq<Command> {
    if |ds| == 0 then [] else DrawDecoration(v, accent, ds[0]) + DrawDecorations(v, accent, ds[1..])
  }

  /**
   * `create_bg`: an unknown key fails at the table lookup before any canvas
   * exists; otherwise a 1200x800 canvas in the background colour with the
   * variant's decorations.
   */
  function CreateBg(key: string): (r: Result<Picture, Error>)
    ensures r.Failure? <==> key != "green" && key != "pink"
    ensures r.Failure? ==> r.error == KeyError(key)
    ensures key == "green" ==> r == Success(Picture(1200, 800, Rgb(240, 255, 240), [
      Polygon([Point(300, 600), Point(400, 500), Point(500, 600)], Some(MountainGreen)),
      Rectangle(300, 300, 900, 500, Some(SkyBlue), None, 1)]))
    ensures key == "pink" ==> r == Success(Picture(1200, 800, Rgb(255, 240, 245), [
      Rectangle(200, 300, 1000, 500, Some(FolderFill), Some(FolderEdge), 1),
      Rectangle(1000, 600, 1120, 720, None, Some(Rgb(200, 0, 100)), 2)]))
  {
    var v :- Lookup(key);
    Success(Background(v))
  }

  /** The background of a known variant. */
  function Background(v: Variant): (p: Picture)
    ensures v == Green ==> p == Picture(1200, 800, Rgb(240, 255, 240), [
      Polygon([Point(300, 600), Point(400, 500), Point(500, 600)], Some(MountainGreen)),
      Rectangle(300, 300, 900, 500, Some(SkyBlue), None, 1)])
    ensures v == Pink ==> p == Picture(1200, 800, Rgb(255, 240, 245), [
      Rectangle(200, 300, 1000, 500, Some(FolderFill), Some(FolderEdge), 1),
      Rectangle(1000, 600, 1120, 720, None, Some(Rgb(200, 0, 100)), 2)])
  {
    var t := TemplateOf(v);
    var ds := t.decorations;
    assert DrawDecorations(v, t.accent, ds)
        == DrawDecoration(v, t.accent, ds[0]) + DrawDecoration(v, t.accent, ds[1]) by {
      assert ds[1..][1..] == [];
    }
    Picture(CanvasWidth, CanvasHeight, t.background, DrawDecorations(v, t.accent, ds))
  }

  /** The year badge: "{year} OFFER" on a clear 300x100 layer, turned a quarter. */
  function YearBadge(t: Template, year: string): (l: Layer)
    ensures l.width == 100 && l.height == 300
    ensures l.text == year + " OFFER"
  {
    var r := Rotate90Expand(TextLayer(300, 100, Clear, year + " OFFER", t.ink, Medium));
    assert QuarterTurn(300, Corners(300, 100)[2]) == Corners(r.width, r.height)[1];
    assert QuarterTurn(300, Corners(300, 100)[0]) == Corners(r.width, r.height)[3];
    r
  }

  /**
   * The green drawing calls after the background. The landscape tuple is
   * read twice: as two corners by the sky rectangle, and as x, y, width and
   * height by the hill polygon.
   */
  function GreenDrawing(t: Template, info: Extractor.FieldSet): seq<Command>
    requires t.layout.GreenLayout?
  {
    var l := t.layout;
    var badge := YearBadge(t, info.year);
    var w := l.browserWindow;
    var s := l.landscape;
    [ Text(l.racStudio, Brand, t.ink, Medium, Left, DefaultSpacing),
      Text(l.congratsOffer, Congratulations, t.accent, Large, Center, DefaultSpacing),
      Paste(CentredCorner(l.yearOffer, badge), badge),
      Rectangle(w.a, w.b, w.c, w.d, None, Some(t.accent), 2),
      Rectangle(s.a, s.b, s.c, s.d, Some(SkyBlue), None, DefaultLineWidth),
      Polygon([Point(s.a, s.d), Point(s.a + s.c / 2, s.b), Point(s.a + s.c, s.d)], Some(MountainGreen)),
      Text(l.toSchool, "TO\n" + info.school, t.ink, Medium, Left, 10),
      Polygon([l.lightning, Point(l.lightning.x + 20, l.lightning.y),
               Point(l.lightning.x + 10, l.lightning.y + 20)], Some(t.accent)) ]
  }

  /** The pink drawing calls after the background, up to the QR outline. */
  function PinkDrawing(t: Template, info: Extractor.FieldSet): seq<Command>
    requires t.layout.PinkLayout?
  {
    var l := t.layout;
    var badge := YearBadge(t, info.year);
    var f := l.folderArea;
    var q := l.qrCode;
    [ Text(l.racStudio, Brand, t.ink, Medium, Left, DefaultSpacing),
      Text(l.congratsOffer, Congratulations, t.accent, Large, Right, DefaultSpacing),
      Paste(CentredCorner(l.yearOffer, badge), badge),
      Rectangle(f.a, f.b, f.c, f.d, Some(FolderFill), Some(FolderEdge), DefaultLineWidth),
      Text(l.toName, "TO\n" + info.name, t.ink, Medium, Left, 10),
      Rectangle(q.x, q.y, q.x + 120, q.y + 120, None, Some(t.accent), 2) ]
  }

  /** The label under the QR outline, in the given font. */
  function QrLabel(t: Template, font: Font): Command
    requires t.layout.PinkLayout?
  {
    Text(Point(t.layout.qrCode.x, t.layout.qrCode.y + 130), Brand, t.accent, font, Left, DefaultSpacing)
  }

  /**
   * `generate_offer` as written. The green path draws its list on the
   * background. The pink path reaches the QR label, whose `font=font_tiny`
   * names a variable that is never assigned, so it raises NameError and no
   * picture is returned.
   */
  function GenerateOffer(info: Extractor.FieldSet, key: string): (r: Result<Picture, Error>)
    ensures key != "green" && key != "pink" ==> r == Failure(KeyError(key))
    ensures key == "pink" ==> r == Failure(NameError("font_tiny"))
    ensures key == "green" ==> r == Success(Picture(1200, 800, Rgb(240, 255, 240), CreateBg(key).value.commands + [
      Text(Point(80, 60), "RAC STUDIO", Rgb(0, 0, 0), Medium, Left, 4),
      Text(Point(400, 150), "Congratulations!\nOffer", Rgb(0, 100, 0), Large, Center, 4),
      Paste(Point(950, -30), Layer(100, 300, Rgba(0, 0, 0, 0), info.year + " OFFER", Rgb(0, 0, 0), Medium, 1)),
      Rectangle(300, 300, 600, 350, None, Some(Rgb(0, 100, 0)), 2),
      Rectangle(350, 320, 500, 300, Some(Rgb(135, 206, 235)), None, 1),
      Polygon([Point(350, 300), Point(600, 320), Point(850, 300)], Some(Rgb(150, 200, 150))),
      Text(Point(80, 650), "TO\n" + info.school, Rgb(0, 0, 0), Medium, Left, 10),
      Polygon([Point(200, 690), Point(220, 690), Point(210, 710)], Some(Rgb(0, 100, 0)))]))
  {
    var v :- Lookup(key);
    var t := TemplateOf(v);
    var bg := Background(v);
    match v
    case Green => Success(bg.(commands := bg.commands + GreenDrawing(t, info)))
    case Pink => Failure(NameError("font_tiny"))
  }

  /**
   * `generate_offer` with the QR label drawn in the tiny font the table of
   * fonts provides: both variants complete.
   */
  function GenerateOfferCorrected(info: Extractor.FieldSet, key: string): (r: Result<Picture, Error>)
    ensures r.Failure? <==> key != "green" && key != "pink"
    ensures r.Failure? ==> r.error == KeyError(key)
    ensures key == "green" ==> r == GenerateOffer(info, key)
    ensures key == "pink" ==> r.Success?
    ensures key == "pink" ==>
      && r.value.width == 1200 && r.value.height == 800
      && r.value.background == Rgb(255, 240, 245)
      && CreateBg(key).value.commands <= r.value.commands
    ensures key == "pink" ==>
      Paste(Point(950, -30), Layer(100, 300, Clear, info.year + " OFFER", Rgb(0, 0, 0), Medium, 1)) in r.value.commands
    ensures key == "pink" ==>
      Text(Point(80, 650), "TO\n" + info.name, Rgb(0, 0, 0), Medium, Left, 10) in r.value.commands
    ensures key == "pink" ==>
      && |r.value.commands| > 0
      && r.value.commands[|r.value.commands| - 1] == Text(Point(1000, 730), Brand, Rgb(200, 0, 100), Tiny, Left, 4)
  {
    var v :- Lookup(key);
    var t := TemplateOf(v);
    var bg := Background(v);
    match v
    case Green => Success(bg.(commands := bg.commands + GreenDrawing(t, info)))
    case Pink => Success(bg.(commands := bg.commands + PinkDrawing(t, info) + [QrLabel(t, Tiny)]))
  }
}

=== FILE: ManualForm.dfy ===
/**
 * streamlit_app.py: its own colour table and `create_offer_image`, which
 * draws the form's name, school and year on a fixed layout.
 */
module ManualForm {
  import opened Wrappers
  import opened Display
  import opened Templates
  import Generator

  /** The three colours of a variant in this file's table. */
  datatype Palette = Palette(background: Rgb, accent: Rgb, ink: Rgb)

  /** The table of `OfferGenerator.__init__` in streamlit_app.py; its colours agree with offer_generator.py's. */
  function PaletteOf(v: Variant): (p: Palette)
    ensures p.background == TemplateOf(v).background
    ensures p.accent == TemplateOf(v).accent
    ensures p.ink == TemplateOf(v).ink
  {
    match v
    case Green => Palette(Rgb(240, 255, 240), Rgb(0, 100, 0), Rgb(0, 0, 0))
    case Pink => Palette(Rgb(255, 240, 245), Rgb(200, 0, 100), Rgb(0, 0, 0))
  }

  /** The translucent white backdrop of this file's badge layer. */
  const ClearWhite: Rgba := Rgba(255, 255, 255, 0)

  /** The turned year badge, pasted with its top-left corner at (1000, 120). */
  function Badge(p: Palette, year: string): Command {
    Paste(Point(1000, 120), Rotate90Expand(TextLayer(300, 100, ClearWhite, year + " OFFER", p.ink, Medium)))
  }

  /** The drawing calls of a known variant. */
  function Drawing(v: Variant, name: string, school: string, year: string): seq<Command> {
    var p := PaletteOf(v);
    match v
    case Green =>
      [ Text(Point(80, 60), Generator.Brand, p.ink, Medium, Left, DefaultSpacing),
        Text(Point(400, 150), Generator.Congratulations, p.accent, Large, Center, DefaultSpacing),
        Badge(p, year),
        Text(Point(80, 650), "TO\n" + school, p.ink, Medium, Left, DefaultSpacing) ]
    case Pink =>
      [ Text(Point(80, 60), Generator.Brand, p.ink, Medium, Left, DefaultSpacing),
        Text(Point(900, 150), Generator.Congratulations, p.accent, Large, Right, DefaultSpacing),
        Badge(p, year),
        Text(Point(80, 650), "TO\n" + name, p.ink, Medium, Left, DefaultSpacing),
        Rectangle(1000, 600, 1120, 720, None, Some(p.accent), 2),
        Text(Point(1000, 730), Generator.Brand, p.accent, Small, Left, DefaultSpacing) ]
  }

  /**
   * `create_offer_image`: an unknown key raises KeyError before a canvas
   * exists; otherwise a 1200x800 canvas in the variant's background colour
   * with the variant's drawing calls. There is no program parameter.
   */
  function CreateOfferImage(key: string, name: string, school: string, year: string): (r: Result<Picture, Error>)
    ensures r.Failure? <==> key != "green" && key != "pink"
    ensures r.Failure? ==> r.error == KeyError(key)
    ensures key == "green" ==> r == Success(Picture(1200, 800, Rgb(240, 255, 240), [
      Text(Point(80, 60), "RAC STUDIO", Rgb(0, 0, 0), Medium, Left, 4),
      Text(Point(400, 150), "Congratulations!\nOffer", Rgb(0, 100, 0), Large, Center, 4),
      Paste(Point(1000, 120), Layer(100, 300, ClearWhite, year + " OFFER", Rgb(0, 0, 0), Medium, 1)),
      Text(Point(80, 650), "TO\n" + school, Rgb(0, 0, 0), Medium, Left, 4)]))
    ensures key == "pink" ==> r == Success(Picture(1200, 800, Rgb(255, 240, 245), [
      Text(Point(80, 60), "RAC STUDIO", Rgb(0, 0, 0), Medium, Left, 4),
      Text(Point(900, 150), "Congratulations!\nOffer", Rgb(200, 0, 100), Large, Right, 4),
      Paste(Point(1000, 120), Layer(100, 300, ClearWhite, year + " OFFER", Rgb(0, 0, 0), Medium, 1)),
      Text(Point(80, 650), "TO\n" + name, Rgb(0, 0, 0), Medium, Left, 4),
      Rectangle(1000, 600, 1120, 720, None, Some(Rgb(200, 0, 100)), 2),
      Text(Point(1000, 730), "RAC STUDIO", Rgb(200, 0, 100), Small, Left, 4)]))
  {
    var v :- Lookup(key);
    var p := PaletteOf(v);
    Success(Picture(CanvasWidth, CanvasHeight, p.background, Drawing(v, name, school, year)))
  }
}

=== FILE: Matcher.dfy ===
/**
 * Hand-coded matchers for the five regular expressions `extract_info`
 * searches with, and the leftmost-match search `re.search` performs.
 *
 * Every matcher is written the way a backtracking regex engine runs the
 * pattern (literal characters one at a time, a greedy `\w+` that gives
 * characters back), and its contract states the declarative meaning.
 */
module Matcher {
  import opened Wrappers
  import opened Chars

  const Classmate: string := "同学"
  const Edinburgh: string := "The University of Edinburgh"
  const EdinburghZh: string := "爱丁堡大学"
  const MscPrefix: string := "MSc "
  const MediaSuffix: string := " Media"
  const CityPlanning: string := "MSc City Planning"

  /** The five patterns of `extract_info`. */
  datatype Pattern =
    | FourDigits    // \d{4}
    | SchoolName    // (The University of Edinburgh|爱丁堡大学)
    | ProgramName   // (MSc \w+ Media|MSc City Planning)
    | LatinName     // [A-Za-z]\w+同学
    | InitialName   // [P|L]同学
    | EitherName    // [A-Za-z]\w+同学|[P|L]同学

  /** A match of a pattern: `t[start..end]`. */
  datatype Span = Span(start: nat, end: nat)

  /** `lit` occurs in `t` at position `i`. */
  predicate LiteralAt(lit: string, t: string, i: nat) {
    i + |lit| <= |t| && t[i..i + |lit|] == lit
  }

  /** `t[i..i+n]` exists and consists of digits. */
  predicate DigitsAt(t: string, i: nat, n: nat) {
    i + n <= |t| && forall k :: i <= k < i + n ==> IsDigit(t[k])
  }

  /** The character class `[P|L]`: the bar inside the brackets is a member. */
  predicate IsInitial(c: char) {
    c == 'P' || c == '|' || c == 'L'
  }

  /** Matches `lit` at `i` one character at a time; yields the end of the match. */
  function MatchLiteral(lit: string, t: string, i: nat): (r: Option<nat>)
    requires i <= |t|
    ensures r.Some? <==> LiteralAt(lit, t, i)
    ensures r.Some? ==> r.value == i + |lit|
    decreases |lit|
  {
    if |lit| == 0 then
      assert t[i..i] == lit;
      Some(i)
    else if i < |t| && t[i] == lit[0] then
      var rest := MatchLiteral(lit[1..], t, i + 1);
      assert LiteralAt(lit, t, i) <==> LiteralAt(lit[1..], t, i + 1) by {
        if i + |lit| <= |t| {
          assert t[i..i + |lit|] == [t[i]] + t[i + 1..i + |lit|];
          assert lit == [lit[0]] + lit[1..];
        }
      }
      rest
    else
      assert !LiteralAt(lit, t, i) by {
        if i + |lit| <= |t| {
          assert t[i..i + |lit|][0] == t[i];
        }
      }
      None
  }

  /** `\d{n}` at `i`. */
  function MatchDigits(t: string, i: nat, n: nat): (r: Option<nat>)
    requires i <= |t|
    ensures r.Some? <==> DigitsAt(t, i, n)
    ensures r.Some? ==> r.value == i + n
    decreases n
  {
    if n == 0 then Some(i)
    else if i < |t| && IsDigit(t[i]) then MatchDigits(t, i + 1, n - 1)
    else None
  }

  /** Length of the maximal run of word characters starting at `i`. */
  function WordRun(t: string, i: nat): (n: nat)
    requires i <= |t|
    ensures i + n <= |t|
    ensures forall k :: i <= k < i + n ==> IsWordChar(t[k])
    ensures i + n == |t| || !IsWordChar(t[i + n])
    decreases |t| - i
  {
    if i < |t| && IsWordChar(t[i]) then 1 + WordRun(t, i + 1) else 0
  }

  /**
   * A greedy `\w+` that started at `s` and currently holds `k` characters,
   * followed by `lit`: try `lit` after the `k` characters, and on failure
   * give one character back, down to the one character `+` needs.
   * The match found is the one with the MOST characters in `\w+`.
   */
  function GiveBack(lit: string, t: string, s: nat, k: nat): (r: Option<nat>)
    requires s + k <= |t|
    ensures r.Some? ==> s + 1 + |lit| <= r.value <= s + k + |lit|
    ensures r.Some? ==> LiteralAt(lit, t, r.value - |lit|)
    ensures r.Some? ==> forall j :: r.value - |lit| < j <= s + k ==> !LiteralAt(lit, t, j)
    ensures r.None? ==> forall j :: s + 1 <= j <= s + k ==> !LiteralAt(lit, t, j)
    decreases k
  {
    if k == 0 then None
    else
      match MatchLiteral(lit, t, s + k)
      case Some(e) => Some(e)
      case None => GiveBack(lit, t, s, k - 1)
  }

  /** `(The University of Edinburgh|爱丁堡大学)` at `i`: first alternative first. */
  function MatchSchool(t: string, i: nat): (r: Option<nat>)
    requires i <= |t|
    ensures r.Some? <==> LiteralAt(Edinburgh, t, i) || LiteralAt(EdinburghZh, t, i)
    ensures r.Some? ==> i <= r.value <= |t|
    ensures r.Some? ==> t[i..r.value] == Edinburgh || t[i..r.value] == EdinburghZh
  {
    match MatchLiteral(Edinburgh, t, i)
    case Some(e) => Some(e)
    case None => MatchLiteral(EdinburghZh, t, i)
  }

  /** `(MSc \w+ Media|MSc City Planning)` at `i`. */
  function MatchProgram(t: string, i: nat): (r: Option<nat>)
    requires i <= |t|
    ensures r.Some? ==> i + |MscPrefix| + 1 + |MediaSuffix| <= r.value <= |t|
  {
    var media :=
      match MatchLiteral(MscPrefix, t, i)
      case Some(j) => GiveBack(MediaSuffix, t, j, WordRun(t, j))
      case None => None;
    match media
    case Some(e) => Some(e)
    case None => MatchLiteral(CityPlanning, t, i)
  }

  /** `[A-Za-z]\w+同学` at `i`. */
  function MatchLatinName(t: string, i: nat): (r: Option<nat>)
    requires i <= |t|
    ensures r.Some? ==> i < |t| && IsAsciiLetter(t[i])
    ensures r.Some? ==> i + 4 <= r.value <= |t| && LiteralAt(Classmate, t, r.value - 2)
  {
    if i < |t| && IsAsciiLetter(t[i]) then
      GiveBack(Classmate, t, i + 1, WordRun(t, i + 1))
    else None
  }

  /** `[P|L]同学` at `i`. */
  function MatchInitialName(t: string, i: nat): (r: Option<nat>)
    requires i <= |t|
    ensures r.Some? <==> i < |t| && IsInitial(t[i]) && LiteralAt(Classmate, t, i + 1)
    ensures r.Some? ==> r.value == i + 3
  {
    if i < |t| && IsInitial(t[i]) then MatchLiteral(Classmate, t, i + 1) else None
  }

  /** Runs pattern `p` anchored at position `i`; yields the end of the match. */
  function MatchAt(p: Pattern, t: string, i: nat): (r: Option<nat>)
    requires i <= |t|
    ensures r.Some? ==> i < r.value <= |t|
  {
    match p
    case FourDigits => MatchDigits(t, i, 4)
    case SchoolName => MatchSchool(t, i)
    case ProgramName => MatchProgram(t, i)
    case LatinName => MatchLatinName(t, i)
    case InitialName => MatchInitialName(t, i)
    case EitherName =>
      match MatchLatinName(t, i)
      case Some(e) => Some(e)
      case None => MatchInitialName(t, i)
  }

  /** `re.search` from position `from`: the first start position that matches. */
  function SearchFrom(p: Pattern, t: string, from: nat): (r: Option<Span>)
    requires from <= |t|
    ensures r.Some? ==> from <= r.value.start <= |t|
    ensures r.Some? ==> MatchAt(p, t, r.value.start) == Some(r.value.end)
    ensures r.Some? ==> forall j :: from <= j < r.value.start ==> MatchAt(p, t, j).None?
    ensures r.None? ==> forall j :: from <= j <= |t| ==> MatchAt(p, t, j).None?
    decreases |t| - from
  {
    match MatchAt(p, t, from)
    case Some(e) => Some(Span(from, e))
    case None => if from == |t| then None else SearchFrom(p, t, from + 1)
  }

  /** `re.search(p, t)`. */
  function Search(p: Pattern, t: string): Option<Span> {
    SearchFrom(p, t, 0)
  }

  /** `m.group()` of a search result. */
  function Group(t: string, m: Option<Span>): Option<string>
    requires m.Some? ==> m.value.start <= m.value.end <= |t|
  {
    match m
    case Some(sp) => Some(t[sp.start..sp.end])
    case None => None
  }

  // ---------------------------------------------------------------------
  // What each pattern's match looks like
  // ---------------------------------------------------------------------

  /** Every character of an occurrence of `lit` is the literal's character. */
  lemma LiteralChars(lit: string, t: string, i: nat, k: nat)
    requires LiteralAt(lit, t, i) && k < |lit|
    ensures t[i + k] == lit[k]
  {
    assert t[i..i + |lit|][k] == t[i + k];
  }

  /** An occurrence of 同学 consists of two word characters. */
  lemma ClassmateIsWord(t: string, j: nat)
    requires LiteralAt(Classmate, t, j)
    ensures IsWordChar(t[j]) && IsWordChar(t[j + 1])
  {
    LiteralChars(Classmate, t, j, 0);
    LiteralChars(Classmate, t, j, 1);
  }

  /** The first alternative of the program pattern, stated without backtracking. */
  predicate MediaFormAt(t: string, i: nat)
    requires i <= |t|
  {
    && LiteralAt(MscPrefix, t, i)
    && WordRun(t, i + |MscPrefix|) >= 1
    && LiteralAt(MediaSuffix, t, i + |MscPrefix| + WordRun(t, i + |MscPrefix|))
  }

  /**
   * The greedy `\w+` of `MSc \w+ Media` can only succeed with the WHOLE
   * word run: giving characters back puts a word character where the
   * space of " Media" must be. So the first alternative matches exactly
   * when "MSc ", a word, and " Media" follow each other, and otherwise
   * the second alternative decides.
   */
  lemma {:induction false} ProgramMatchShape(t: string, i: nat)
    requires i <= |t|
    ensures MatchProgram(t, i).Some? <==> MediaFormAt(t, i) || LiteralAt(CityPlanning, t, i)
    ensures MediaFormAt(t, i) ==>
      MatchProgram(t, i) == Some(i + |MscPrefix| + WordRun(t, i + |MscPrefix|) + |MediaSuffix|)
    ensures !MediaFormAt(t, i) && LiteralAt(CityPlanning, t, i) ==>
      MatchProgram(t, i) == Some(i + |CityPlanning|)
  {
    if LiteralAt(MscPrefix, t, i) {
      var j := i + |MscPrefix|;
      var m := WordRun(t, j);
      var g := GiveBack(MediaSuffix, t, j, m);
      assert MatchLiteral(MscPrefix, t, i) == Some(j);
      if g.Some? {
        var p := g.value - |MediaSuffix|;
        LiteralChars(MediaSuffix, t, p, 0);
        assert !IsWordChar(t[p]);
        assert p == j + m;
        assert MediaFormAt(t, i);
      } else {
        assert !MediaFormAt(t, i);
      }
    } else {
      assert !MediaFormAt(t, i);
    }
  }

  /**
   * A match of `[A-Za-z]\w+同学` at `i` starts with a Latin letter, stays
   * inside the run of word characters after it, and ends at the LAST 同学
   * of that run; without a match there is no letter at `i` or no 同学 in
   * the run after the first `\w`.
   */
  lemma {:induction false} LatinNameShape(t: string, i: nat)
    requires i <= |t|
    ensures MatchLatinName(t, i).Some? ==>
      var e := MatchLatinName(t, i).value;
      var m := WordRun(t, i + 1);
      && IsAsciiLetter(t[i])
      && i + 4 <= e <= i + 1 + m
      && LiteralAt(Classmate, t, e - 2)
      && (forall k :: i + 1 <= k < e ==> IsWordChar(t[k]))
      && (forall j :: e - 2 < j && j + 2 <= i + 1 + m ==> !LiteralAt(Classmate, t, j))
    ensures MatchLatinName(t, i).None? ==>
      || i == |t|
      || !IsAsciiLetter(t[i])
      || forall j :: i + 2 <= j <= i + 1 + WordRun(t, i + 1) ==> !LiteralAt(Classmate, t, j)
  {
    if i < |t| && IsAsciiLetter(t[i]) {
      var m := WordRun(t, i + 1);
      var g := GiveBack(Classmate, t, i + 1, m);
      if g.Some? {
        var p := g.value - 2;
        ClassmateIsWord(t, p);
        // 同 and 学 are word characters, so neither can sit past the run
        assert p + 2 <= i + 1 + m;
      }
    }
  }

  /**
   * A `\d{4}` search finds the leftmost four digits; inside a longer run of
   * digits that is the run's first four, because one position earlier
   * would already have matched.
   */
  lemma {:induction false} YearSearchShape(t: string)
    ensures Search(FourDigits, t).None? <==> forall i :: 0 <= i <= |t| ==> !DigitsAt(t, i, 4)
    ensures Search(FourDigits, t).Some? ==>
      var sp := Search(FourDigits, t).value;
      && sp.end == sp.start + 4
      && DigitsAt(t, sp.start, 4)
      && (forall j :: 0 <= j < sp.start ==> !DigitsAt(t, j, 4))
      && (sp.start == 0 || !IsDigit(t[sp.start - 1]))
  {
    var r := Search(FourDigits, t);
    if r.None? {
      forall i | 0 <= i <= |t|
        ensures !DigitsAt(t, i, 4)
      {
        assert MatchAt(FourDigits, t, i).None?;
      }
    } else {
      var sp := r.value;
      assert MatchAt(FourDigits, t, sp.start) == Some(sp.end);
      forall j | 0 <= j < sp.start
        ensures !DigitsAt(t, j, 4)
      {
        assert MatchAt(FourDigits, t, j).None?;
      }
      if sp.start > 0 && IsDigit(t[sp.start - 1]) {
        assert DigitsAt(t, sp.start - 1, 4);
        assert false;
      }
    }
  }

  /**
   * A school search finds whichever of the two names occurs first; at one
   * position only one of them can occur, and neither occurs earlier.
   */
  lemma {:induction false} SchoolSearchShape(t: string)
    ensures Search(SchoolName, t).None? <==>
      forall i :: 0 <= i <= |t| ==> !LiteralAt(Edinburgh, t, i) && !LiteralAt(EdinburghZh, t, i)
    ensures Search(SchoolName, t).Some? ==>
      var sp := Search(SchoolName, t).value;
      && sp.start <= sp.end <= |t|
      && (t[sp.start..sp.end] == Edinburgh || t[sp.start..sp.end] == EdinburghZh)
      && (forall j :: 0 <= j < sp.start ==> !LiteralAt(Edinburgh, t, j) && !LiteralAt(EdinburghZh, t, j))
  {
    var r := Search(SchoolName, t);
    if r.None? {
      forall i | 0 <= i <= |t|
        ensures !LiteralAt(Edinburgh, t, i) && !LiteralAt(EdinburghZh, t, i)
      {
        assert MatchAt(SchoolName, t, i).None?;
      }
    } else {
      var sp := r.value;
      assert MatchAt(SchoolName, t, sp.start) == Some(sp.end);
      forall j | 0 <= j < sp.start
        ensures !LiteralAt(Edinburgh, t, j) && !LiteralAt(EdinburghZh, t, j)
      {
        assert MatchAt(SchoolName, t, j).None?;
      }
    }
  }

  // ---------------------------------------------------------------------
  // The search is determined by the leftmost matching position
  // ---------------------------------------------------------------------

  /**
   * Converse of `SearchFrom`'s contract: a position that matches, with no
   * matching position before it, is what the search returns.
   */
  lemma {:induction false} SearchFromFindsFirst(p: Pattern, t: string, from: nat, s: nat, e: nat)
    requires from <= s <= |t|
    requires MatchAt(p, t, s) == Some(e)
    requires forall j :: from <= j < s ==> MatchAt(p, t, j).None?
    ensures SearchFrom(p, t, from) == Some(Span(s, e))
    decreases s - from
  {
    if from < s {
      assert MatchAt(p, t, from).None?;
      SearchFromFindsFirst(p, t, from + 1, s, e);
    }
  }

  /** `Search` returns exactly the leftmost position at which `p` matches. */
  lemma SearchIsLeftmost(p: Pattern, t: string, s: nat, e: nat)
    requires s <= |t|
    ensures Search(p, t) == Some(Span(s, e)) <==>
      MatchAt(p, t, s) == Some(e) && forall j :: 0 <= j < s ==> MatchAt(p, t, j).None?
  {
    if MatchAt(p, t, s) == Some(e) && forall j :: 0 <= j < s ==> MatchAt(p, t, j).None? {
      SearchFromFindsFirst(p, t, 0, s, e);
    }
  }
}

=== FILE: Offers.dfy ===
/**
 * How the two compositors relate, what each output depends on, and the
 * document-to-picture path of offer_generator.py.
 */
module Offers {
  import opened Wrappers
  import opened Display
  import opened Templates
  import Extractor
  import Generator
  import ManualForm

  /** Captions of a concatenation are the concatenated captions. */
  lemma {:induction false} CaptionsAppend(a: seq<Command>, b: seq<Command>)
    ensures Captions(a + b) == Captions(a) + Captions(b)
    decreases |a|
  {
    if |a| > 0 {
      assert (a + b)[1..] == a[1..] + b;
      CaptionsAppend(a[1..], b);
    } else {
      assert a + b == b;
    }
  }

  /** Pastes of a concatenation are the concatenated pastes. */
  lemma {:induction false} PastesAppend(a: seq<Command>, b: seq<Command>)
    ensures Pastes(a + b) == Pastes(a) + Pastes(b)
    decreases |a|
  {
    if |a| > 0 {
      assert (a + b)[1..] == a[1..] + b;
      PastesAppend(a[1..], b);
    } else {
      assert a + b == b;
    }
  }

  /** One step of `Captions` and `Pastes` at position `k`. */
  lemma ProjectionsStep(cs: seq<Command>, k: nat)
    requires k < |cs|
    ensures Captions(cs[k..]) ==
      (if cs[k].Text? then [(cs[k].at, cs[k].text)] else []) + Captions(cs[k + 1..])
    ensures Pastes(cs[k..]) ==
      (if cs[k].Paste? then [(cs[k].at, cs[k].layer)] else []) + Pastes(cs[k + 1..])
  {
    assert cs[k..][1..] == cs[k + 1..];
  }

  /** The texts and the badge of the green drawing calls of offer_generator.py. */
  lemma GreenDrawingProjections(info: Extractor.FieldSet)
    ensures var t := TemplateOf(Green);
      var gd := Generator.GreenDrawing(t, info);
      && Captions(gd) == [(Point(80, 60), Generator.Brand), (Point(400, 150), Generator.Congratulations),
                          (Point(80, 650), "TO\n" + info.school)]
      && Pastes(gd) == [(gd[2].at, gd[2].layer)]
  {
    var gd := Generator.GreenDrawing(TemplateOf(Green), info);
    assert gd[8..] == [];
    ProjectionsStep(gd, 7);
    ProjectionsStep(gd, 6);
    ProjectionsStep(gd, 5);
    ProjectionsStep(gd, 4);
    ProjectionsStep(gd, 3);
    ProjectionsStep(gd, 2);
    ProjectionsStep(gd, 1);
    ProjectionsStep(gd, 0);
    assert gd[0..] == gd;
  }

  /** The texts and the badge of the pink drawing calls, QR label included. */
  lemma PinkDrawingProjections(info: Extractor.FieldSet)
    ensures var t := TemplateOf(Pink);
      var pd := Generator.PinkDrawing(t, info) + [Generator.QrLabel(t, Tiny)];
      && Captions(pd) == [(Point(80, 60), Generator.Brand), (Point(900, 150), Generator.Congratulations),
                          (Point(80, 650), "TO\n" + info.name), (Point(1000, 730), Generator.Brand)]
      && Pastes(pd) == [(pd[2].at, pd[2].layer)]
  {
    var t := TemplateOf(Pink);
    var pd := Generator.PinkDrawing(t, info) + [Generator.QrLabel(t, Tiny)];
    assert pd[7..] == [];
    ProjectionsStep(pd, 6);
    ProjectionsStep(pd, 5);
    ProjectionsStep(pd, 4);
    ProjectionsStep(pd, 3);
    ProjectionsStep(pd, 2);
    ProjectionsStep(pd, 1);
    ProjectionsStep(pd, 0);
    assert pd[0..] == pd;
  }

  /** The texts and the badge of streamlit_app.py's drawing calls. */
  lemma FormDrawingProjections(v: Variant, name: string, school: string, year: string)
    ensures var d := ManualForm.Drawing(v, name, school, year);
      && Captions(d) == (if v == Green then
           [(Point(80, 60), Generator.Brand), (Point(400, 150), Generator.Congratulations),
            (Point(80, 650), "TO\n" + school)]
         else
           [(Point(80, 60), Generator.Brand), (Point(900, 150), Generator.Congratulations),
            (Point(80, 650), "TO\n" + name), (Point(1000, 730), Generator.Brand)])
      && Pastes(d) == [(d[2].at, d[2].layer)]
  {
    var d := ManualForm.Drawing(v, name, school, year);
    if v == Pink {
      assert d[6..] == [];
      ProjectionsStep(d, 5);
      ProjectionsStep(d, 4);
    } else {
      assert d[4..] == [];
    }
    ProjectionsStep(d, 3);
    ProjectionsStep(d, 2);
    ProjectionsStep(d, 1);
    ProjectionsStep(d, 0);
    assert d[0..] == d;
  }

  /** A background holds shapes only. */
  lemma BackgroundHasNoText(v: Variant)
    ensures Captions(Generator.Background(v).commands) == []
    ensures Pastes(Generator.Background(v).commands) == []
  {
    var cs := Generator.Background(v).commands;
    assert cs[1..][1..] == [];
  }

  /**
   * The drawing calls of offer_generator.py (QR label font corrected),
   * background first, indexed by variant rather than by key. The projection
   * lemmas below unfold this per variant without going through the key
   * lookup and the Result; `GeneratorCommandsOf` proves it equal to the
   * picture `Generator.GenerateOfferCorrected` returns.
   */
  function GeneratorCommands(info: Extractor.FieldSet, v: Variant): seq<Command> {
    var t := TemplateOf(v);
    Generator.Background(v).commands +
      match v
      case Green => Generator.GreenDrawing(t, info)
      case Pink => Generator.PinkDrawing(t, info) + [Generator.QrLabel(t, Tiny)]
  }

  lemma GeneratorCommandsOf(info: Extractor.FieldSet, key: string)
    requires key == "green" || key == "pink"
    ensures Generator.GenerateOfferCorrected(info, key).value.commands == GeneratorCommands(info, Lookup(key).value)
    ensures ManualForm.CreateOfferImage(key, info.name, info.school, info.year).value.commands
            == ManualForm.Drawing(Lookup(key).value, info.name, info.school, info.year)
  {
  }

  /** The texts and the badge offer_generator.py draws, background included. */
  lemma GeneratorProjections(info: Extractor.FieldSet, v: Variant)
    ensures var cs := GeneratorCommands(info, v);
      var d := ManualForm.Drawing(v, info.name, info.school, info.year);
      && Captions(cs) == Captions(d)
      && |Pastes(cs)| == 1
      && Pastes(cs)[0].1 == Generator.YearBadge(TemplateOf(v), info.year)
      && Pastes(cs)[0].0 == CentredCorner(Point(1000, 120), Generator.YearBadge(TemplateOf(v), info.year))
  {
    var t := TemplateOf(v);
    var bg := Generator.Background(v).commands;
    BackgroundHasNoText(v);
    FormDrawingProjections(v, info.name, info.school, info.year);
    if v == Green {
      var gd := Generator.GreenDrawing(t, info);
      CaptionsAppend(bg, gd);
      PastesAppend(bg, gd);
      GreenDrawingProjections(info);
    } else {
      var pd := Generator.PinkDrawing(t, info) + [Generator.QrLabel(t, Tiny)];
      CaptionsAppend(bg, pd);
      PastesAppend(bg, pd);
      PinkDrawingProjections(info);
    }
  }

  /**
   * For the same fields both compositors write the same texts at the same
   * places, in the same order (offer_generator.py with its QR label font
   * corrected): brand, caption, the footer, and for pink the QR label.
   */
  lemma CaptionsAgree(info: Extractor.FieldSet, key: string)
    requires key == "green" || key == "pink"
    ensures var g := Generator.GenerateOfferCorrected(info, key);
      var f := ManualForm.CreateOfferImage(key, info.name, info.school, info.year);
      Captions(g.value.commands) == Captions(f.value.commands)
  {
    GeneratorCommandsOf(info, key);
    GeneratorProjections(info, Lookup(key).value);
  }

  /** The centred badge's corner: (1000 - 100 // 2, 120 - 300 // 2). */
  lemma CentredBadgeCorner(v: Variant, year: string)
    ensures CentredCorner(Point(1000, 120), Generator.YearBadge(TemplateOf(v), year)) == Point(950, -30)
  {
  }

  /** The badge facts over the two drawing-call lists. */
  lemma BadgesOf(info: Extractor.FieldSet, v: Variant)
    ensures var g := Pastes(GeneratorCommands(info, v));
      var f := Pastes(ManualForm.Drawing(v, info.name, info.school, info.year));
      && |g| == 1 && |f| == 1
      && g[0].1.width == f[0].1.width == 100 && g[0].1.height == f[0].1.height == 300
      && g[0].1.text == f[0].1.text == info.year + " OFFER"
      && g[0].0 == Point(f[0].0.x - f[0].1.width / 2, f[0].0.y - f[0].1.height / 2)
      && !PasteOnCanvas(g[0].0, g[0].1)
      && PasteOnCanvas(f[0].0, f[0].1)
  {
    GeneratorProjections(info, v);
    FormDrawingProjections(v, info.name, info.school, info.year);
    var badge := Generator.YearBadge(TemplateOf(v), info.year);
    CentredBadgeCorner(v, info.year);
    var d := ManualForm.Drawing(v, info.name, info.school, info.year);
    assert d[2] == ManualForm.Badge(ManualForm.PaletteOf(v), info.year);
  }

  /**
   * Both compositors paste one badge of the same size and text, but
   * offer_generator.py centres it on (1000, 120), which puts its top 30
   * pixels above the canvas, while streamlit_app.py puts its corner there
   * and the badge lies wholly on the canvas.
   */
  lemma BadgePlacementDiffers(info: Extractor.FieldSet, key: string)
    requires key == "green" || key == "pink"
    ensures var g := Pastes(Generator.GenerateOfferCorrected(info, key).value.commands);
      var f := Pastes(ManualForm.CreateOfferImage(key, info.name, info.school, info.year).value.commands);
      && |g| == 1 && |f| == 1
      && g[0].1.width == f[0].1.width == 100 && g[0].1.height == f[0].1.height == 300
      && g[0].1.text == f[0].1.text == info.year + " OFFER"
      && g[0].0 == Point(f[0].0.x - f[0].1.width / 2, f[0].0.y - f[0].1.height / 2)
      && !PasteOnCanvas(g[0].0, g[0].1)
      && PasteOnCanvas(f[0].0, f[0].1)
  {
    GeneratorCommandsOf(info, key);
    BadgesOf(info, Lookup(key).value);
  }

  /**
   * The green output of either compositor ignores the name (and the program,
   * which `create_offer_image` does not even take); the pink output ignores
   * the school.
   */
  lemma OutputIgnoresUnshownFields(i1: Extractor.FieldSet, i2: Extractor.FieldSet)
    ensures i1.school == i2.school && i1.year == i2.year ==>
      && Generator.GenerateOffer(i1, "green") == Generator.GenerateOffer(i2, "green")
      && ManualForm.CreateOfferImage("green", i1.name, i1.school, i1.year)
         == ManualForm.CreateOfferImage("green", i2.name, i2.school, i2.year)
    ensures i1.name == i2.name && i1.year == i2.year ==>
      && Generator.GenerateOfferCorrected(i1, "pink") == Generator.GenerateOfferCorrected(i2, "pink")
      && ManualForm.CreateOfferImage("pink", i1.name, i1.school, i1.year)
         == ManualForm.CreateOfferImage("pink", i2.name, i2.school, i2.year)
  {
  }

  /**
   * `generate_offer` from a document, as written: extraction first (the PDF
   * reader's pages or the OCR engine's lines for the file are passed in),
   * then the template lookup and the drawing. Only the green variant yields
   * a picture; its footer shows the extracted school, which is the sentinel
   * or a well-formed match.
   */
  function OfferFromDocument(path: string, pdfPages: seq<string>, ocrLines: seq<string>, key: string)
    : (r: Result<Picture, Error>)
    ensures r.Success? <==> key == "green"
    ensures key != "green" && key != "pink" ==> r == Failure(KeyError(key))
    ensures key == "pink" ==> r == Failure(NameError("font_tiny"))
    ensures r.Success? ==> r.value.width == 1200 && r.value.height == 800
    ensures var info := Extractor.ExtractInfo(path, pdfPages, ocrLines);
      && Extractor.WellShaped(info)
      && (r.Success? ==> Text(Point(80, 650), "TO\n" + info.school, Rgb(0, 0, 0), Medium, Left, 10) in r.value.commands)
  {
    Generator.GenerateOffer(Extractor.ExtractInfo(path, pdfPages, ocrLines), key)
  }
}

=== FILE: Templates.dfy ===
/**
 * The template table of `OfferGenerator.__init__` in offer_generator.py:
 * a closed set of two variants, each with its colours, its layout slots
 * and its decoration list.
 */
module Templates {
  import opened Wrappers
  import opened Display

  datatype Variant = Green | Pink

  /** The dictionary key of a variant. */
  function Key(v: Variant): (k: string)
    ensures Lookup(k) == Success(v)
  {
    match v
    case Green => "green"
    case Pink => "pink"
  }

  /** `self.templates[offer_type]`: any other key raises KeyError. */
  function Lookup(key: string): (r: Result<Variant, Error>)
    ensures r.Success? <==> key == "green" || key == "pink"
    ensures r.Failure? ==> r.error == KeyError(key)
  {
    if key == "green" then Success(Green)
    else if key == "pink" then Success(Pink)
    else Failure(KeyError(key))
  }

  /** A four-number layout tuple, read by its users in different ways. */
  datatype Quad = Quad(a: int, b: int, c: int, d: int)

  /** The layout slots; each variant has the ones its drawing routine reads. */
  datatype Layout =
    | GreenLayout(
        racStudio: Point, congratsOffer: Point, yearOffer: Point,
        browserWindow: Quad, landscape: Quad, toSchool: Point, lightning: Point)
    | PinkLayout(
        racStudio: Point, congratsOffer: Point, yearOffer: Point,
        folderArea: Quad, toName: Point, qrCode: Point)

  /** A background decoration; the folder's size is a pair, the others' a number. */
  datatype Decoration =
    | Mountain(pos: Point, size: int)
    | Sky(pos: Point, size: int)
    | Folder(pos: Point, w: int, h: int)
    | QrBorder(pos: Point, size: int)

  datatype Template = Template(
    background: Rgb, accent: Rgb, ink: Rgb, layout: Layout, decorations: seq<Decoration>)

  /** The table entry of a variant. */
  function TemplateOf(v: Variant): (t: Template)
    ensures t.layout.GreenLayout? <==> v == Green
    ensures t.ink == Rgb(0, 0, 0)
    ensures t.layout.racStudio == Point(80, 60) && t.layout.yearOffer == Point(1000, 120)
    ensures |t.decorations| == 2
  {
    match v
    case Green =>
      Template(
        Rgb(240, 255, 240), Rgb(0, 100, 0), Rgb(0, 0, 0),
        GreenLayout(
          racStudio := Point(80, 60),
          congratsOffer := Point(400, 150),
          yearOffer := Point(1000, 120),
          browserWindow := Quad(300, 300, 600, 350),
          landscape := Quad(350, 320, 500, 300),
          toSchool := Point(80, 650),
          lightning := Point(80 + 120, 650 + 40)),
        [Mountain(Point(300, 600), 200), Sky(Point(300, 300), 600)])
    case Pink =>
      Template(
        Rgb(255, 240, 245), Rgb(200, 0, 100), Rgb(0, 0, 0),
        PinkLayout(
          racStudio := Point(80, 60),
          congratsOffer := Point(900, 150),
          yearOffer := Point(1000, 120),
          folderArea := Quad(200, 300, 800, 200),
          toName := Point(80, 650),
          qrCode := Point(1000, 600)),
        [Folder(Point(200, 300), 800, 200), QrBorder(Point(1000, 600), 120)])
  }
}

=== FILE: Wrappers.dfy ===
/** Failure-compatible wrappers used by the extractor and the compositor. */
module Wrappers {

  /** A value that may be absent: a regex search result, a match end. */
  datatype Option<+T> = None | Some(value: T)

  /** Either a value or the exception the source raises instead. */
  datatype Result<+R, +E> = Success(value: R) | Failure(error: E) {

    predicate IsFailure() {
      Failure?
    }

    function PropagateFailure<U>(): Result<U, E>
      requires Failure?
    {
      Failure(error)
    }

    function Extract(): R
      requires Success?
    {
      value
    }
  }
}
